=== FILE: README.md ===
# ko-command, modelled in Dafny

ko-command adds two things to Knockout. `ko.command` wraps a user action in a
command with two observables. `isExecuting` is true while the action runs or
while the promise it returned is pending. `canExecute` is the resolved value of
an optional, possibly asynchronous, predicate. The `command` binding handler
wires a command to a DOM element. It keeps the element's `disabled` property
equal to `canExecute() == false || isExecuting()`, picks the events that
trigger the command, gates each listener, and rejects two setup mistakes.

The model replaces Knockout's observables with fields of an immutable record.
Each change is a pure step over abstract events:
- `execute` (or a direct call) with an ordinary or promise result;
- a re-evaluation of the raw `canExecute` predicate;
- the fulfilment or rejection of a promise;
- a DOM event on a bound element.

Promises are opaque object ids. When the code registers a `finally` or `then`
callback, the model records the id in a watch set, and a later `Fulfilled` or
`Rejected` step runs the callback.

Files:
- `basics.dfy` (`Basics`): `Option` and `Result`.
- `js_values.dfy` (`JsValues`): the JavaScript values involved. It also holds
  truthiness, loose `== false`, the duck-typed `then`/`finally` tests and
  Knockout's primitive equality comparer.
- `ascii.dfy` (`Ascii`): `toUpperCase` on ASCII, and its agreement with a
  letter-by-letter case-insensitive comparison.
- `commands.dfy` (`Commands`): `normaliseOptions`, `setIsExecutingToFalse`,
  `ko.command` (direct call, `execute`, the `canExecuteRaw` subscriber,
  seeding), and promise settlement.
- `binder.dfy` (`Binder`): `getCommandExecuteTriggers` and
  `ko.bindingHandlers.command.init` (disable condition, trigger resolution,
  errors, listeners, gating). It also holds the page-level step function.
- `command_properties.dfy`, `binder_properties.dfy`: the lemmas.

`lib/ko-command.js` is the compiled copy of `lib/ko-command.ts`. Its
command part is the same logic line for line, with the flag spelled
`isExectuting`, and the same `Commands` members model both. Its binding
handler differs only in the listeners: its trigger defaults, the
explicit-list override and both setup errors are the same, and the same
`Binder` members model both. Its Enter and event listeners return
early on `command.canExecute() == false` alone, where the TypeScript listeners
consult the combined condition. It also does not call `result.done()`. The
variant is a parameter, `Binder.Variant` (`Ts` or `Js`), of the gate and of
every step.

Behaviour the code has that a reader might not expect:
- The settlement of any promise an action returned clears the shared
  `isExecuting`. With two overlapping executions, the first to settle already
  makes the flag false. Settling a promise from the `canExecute` predicate
  leaves the flag alone.
- An action that throws leaves `isExecuting` true. Nothing resets the flag
  between the throw and the caller. So does `execute` on a record without
  `execute`, whose call throws a TypeError.
- `canExecute` starts as `undefined` only inside construction. The raw
  predicate is evaluated and pushed through the subscriber before
  `ko.command` returns.
- A superseded `canExecute` promise that fulfils late still overwrites the
  value. The raw computed re-evaluating to the same primitive does not repair
  it, because Knockout does not notify an unchanged primitive.
- The "no triggers" error is thrown after the `disabled` subscription is
  attached and the initial `disabled` has been written. `BindError.NoTriggers`
  records the value written.
- In the TypeScript listeners, `'done' in result` (lib/ko-command.ts:158,
  174) throws a TypeError when the action returns a truthy primitive such as
  `true` or `1`. The throw comes after `execute` has returned, so the command's
  state is as `execute` left it, but the listener ends with an error.
- `canExecute` is only trustworthy while the raw predicate waits for its
  latest promise before it re-evaluates. The model proves agreement under
  exactly that discipline, and shows how a late fulfilment breaks it without.

## Model

| member | source | states |
|---|---|---|
| Commands.Normalise | lib/ko-command.ts:30-42 | The argument's own `execute` wins, else the argument itself; a record without `execute` yields a non-callable target; `canExecute` is the given predicate or the constant-true default exactly when none is given |
| Commands.Call | lib/ko-command.ts:77-79 | Calling the command directly returns the action's completion unchanged (a TypeError when the argument had no `execute` and was not itself a function) and leaves the whole command state, both flags included, as it was |
| Commands.BeginExecute | lib/ko-command.js:35-36 | The action runs in a state where `isExecuting` is true and nothing else differs |
| Commands.Execute | lib/ko-command.ts:83-88 | `execute` returns the action's completion verbatim (a TypeError for a non-callable target); afterwards `isExecuting` is true exactly when the action threw or returned a `finally`-able result, whose id is then watched; `canExecute` is untouched |
| Commands.SettleOrClear | lib/ko-command.ts:44-55 | After the action returns, the flag stays set exactly when the result has `finally` (and was set); such a result is watched; `canExecute`, the raw value and the `then` watches are untouched |
| Commands.RunFinally | lib/ko-command.js:10-18 | Settling a watched promise clears `isExecuting` and unregisters it; an unwatched promise changes nothing; only the flag and the watch set move |
| CommandProperties.SyncExecutionClears | lib/ko-command.js:34-40 | With an ordinary result the flag is false again when `execute` returns, and only the flag moved |
| CommandProperties.PromiseExecutionLifecycle | lib/ko-command.ts:47-50 | A promise result keeps `isExecuting` true; its fulfilment or its rejection sets it false; `canExecute` is not touched |
| CommandProperties.ThrowLeavesExecuting | lib/ko-command.ts:84-86 | A throw (or a non-callable target) escapes before the reset, leaving `isExecuting` true |
| CommandProperties.SharedFlagClearsEarly | lib/ko-command.ts:44-55 | With two pending executions on different promises, settling the first clears the flag while the second is still watched |
| Commands.Resolve | lib/ko-command.ts:94-105 | A then-able raw value forces `canExecute` to false and registers its fulfilment; any other value is copied into `canExecute`; `isExecuting` is untouched |
| Commands.RawChange | lib/ko-command.ts:92-94 | The constant-true default never re-evaluates; an unchanged primitive notifies nobody; otherwise the new raw value is recorded and resolved |
| Commands.Fulfil | lib/ko-command.ts:96-100 | A watched then-able's fulfilment overwrites `canExecute` with the fulfilled value whether or not it is stale; a watched action promise clears `isExecuting` |
| Commands.Reject | lib/ko-command.js:44-50 | A rejection leaves `canExecute` unchanged, unregisters the promise, and clears `isExecuting` if an action returned it |
| Commands.Create | lib/ko-command.ts:90-107 | A new command is not executing; its first raw value (true for the default predicate) is already resolved: copied when plain, false and watched when then-able |
| CommandProperties.DefaultCommandIsReady | lib/ko-command.ts:107 | Without `canExecute`, the command reads `canExecute == true` and is idle straight after construction |
| CommandProperties.PlainValueCopied | lib/ko-command.ts:104 | A new plain raw value is in `canExecute` synchronously; an equal primitive leaves the command unchanged |
| CommandProperties.ThenableResolution | lib/ko-command.js:42-53 | A then-able raw value makes `canExecute` false at once; then fulfilment sets the fulfilled value and rejection keeps false |
| CommandProperties.ExecutionLeavesCanExecute | lib/ko-command.ts:83-88 | Executing, and settling a promise that no `then` callback watches, never changes `canExecute` |
| CommandProperties.CreateReflectsLatest | lib/ko-command.js:41-53 | A fresh command's `canExecute` agrees with its first evaluation and it has no stale callbacks |
| CommandProperties.StepsKeepReflectsLatest | lib/ko-command.ts:94-105 | From a state without stale callbacks, every command step keeps `canExecute` equal to the latest plain raw value, or false while the latest promise is pending |
| CommandProperties.StepsKeepNoStaleWatch | lib/ko-command.ts:94-105 | Executing and settling never leave a `then` callback on a superseded promise, and neither does re-evaluating once the latest promise has settled |
| CommandProperties.StaleFulfilSticks | lib/ko-command.ts:98-100 | Without sequencing, a superseded promise fulfilling late overwrites a newer `true`, and re-evaluating to `true` does not repair it |
| CommandProperties.RejectThenRecover | test/ko-command.spec.ts:151-182 | A resolved-false promise, then a rejected one, keep `canExecute` false; a later promise fulfilling `true` makes it true |
| Binder.DefaultTriggers | lib/ko-command.ts:122-130 | The default list is `["click"]` exactly when the tag is BUTTON or A, or INPUT with type BUTTON, each compared case-insensitively letter by letter; every other element gets `[]` |
| Binder.ResolveTriggers | lib/ko-command.ts:165-166 | A supplied list, the empty list included, is used as given; without one the element gets `["click"]` exactly when it is a button, a link or a button input (case-insensitively) and `[]` otherwise |
| Ascii.UpperEqualsIffIgnoringCase | lib/ko-command.ts:123-126 | Upper-casing and comparing with an upper-case word is the same as comparing letter by letter without regard to case |
| Binder.Init | lib/ko-command.ts:133-183 | Binding fails with "requires ko.command" exactly when the bound object lacks `execute`; it fails with "no triggers" exactly when the Enter flag is falsy and the resolved list is empty; otherwise it adds the element with that list, the flag's truthiness and `disabled` equal to the combined condition |
| BinderProperties.EmptyTriggerListFails | lib/ko-command.js:101-103 | An explicit empty list with no Enter trigger is a setup error on every element |
| Binder.EventListeners | lib/ko-command.ts:167-168 | One listener is registered per trigger name, in list order, duplicates included |
| Binder.Listeners | lib/ko-command.ts:150-179 | An element's listeners in registration order: the Enter listener first when `commandExecuteOnEnter` is truthy, then one per trigger |
| Binder.RunListeners | lib/ko-command.ts:151-179 | A DOM event calls `execute` at most once per listener, always with the element's view model and the event itself |
| Binder.Refresh | lib/ko-command.ts:140-143 | When the command changes, every element's `disabled` receives the new condition if the condition changed and nothing is written otherwise; nothing else about an element moves |
| BinderProperties.DisableConditionCases | lib/ko-command.ts:140-142 | An element is disabled exactly when `canExecute` reads `false` or `0` or the command is executing; `undefined` and `null` do not disable |
| BinderProperties.InitKeepsMirror | lib/ko-command.ts:144 | A successful binding starts with `disabled` equal to `canExecute == false \|\| isExecuting` |
| BinderProperties.RefreshKeepsMirror | lib/ko-command.ts:140-143 | The subscription, which writes only when the condition changes, keeps every `disabled` equal to the condition |
| BinderProperties.StepKeepsMirror | lib/ko-command.js:73-77 | Every step, in either copy of the handler, keeps every element's `disabled` equal to the combined condition |
| Binder.Step | lib/ko-command.js:73-99 | One step only ever moves elements' `disabled` values and never the command's action or predicate; a direct call changes nothing; a DOM event leaves `canExecute` and the raw predicate's state alone |
| Binder.Run | lib/ko-command.ts:140-179 | Any sequence of steps keeps every element bound with its view model, Enter flag and triggers, and the command's action and predicate |
| BinderProperties.RunKeepsMirror | lib/ko-command.ts:140-144 | The mirror holds after any sequence of steps |
| BinderProperties.UndefinedDoesNotDisable | lib/ko-command.ts:141 | An unresolved (undefined) `canExecute` does not disable: the condition is then `isExecuting` alone |
| BinderProperties.GatesDifferByExecuting | lib/ko-command.ts:151-171 | The TypeScript gate (ts:152, 169) opens exactly when the JavaScript gate (js:84, 95) opens and the command is not executing; neither opens on `canExecute` false or 0; an Enter listener stays shut for any key but 13 |
| BinderProperties.TsDisabledRunsNothing | lib/ko-command.ts:169-171 | In the TypeScript handler, no listener executes and nothing changes while the combined condition holds |
| BinderProperties.JsCannotExecuteRunsNothing | lib/ko-command.js:94-96 | In the JavaScript handler, no listener executes while `canExecute == false` |
| BinderProperties.EnterNeedsKeyThirteen | lib/ko-command.ts:151-154 | A `keydown` whose `which` is not 13 executes nothing unless "keydown" is itself a trigger |
| BinderProperties.UnlistedEventRunsNothing | lib/ko-command.ts:150-179 | An event that is not a trigger of the element, and not the Enter listener's `keydown`, executes nothing and leaves the page unchanged |
| BinderProperties.ListedEventExecutes | lib/ko-command.ts:167-172 | An event named among the element's triggers executes the command at least once whenever the variant's gate is open |
| BinderProperties.MouseenterTriggerScenario | test/ko-command.spec.ts:314-332 | Binding a button to a ready command with only "mouseenter" listed replaces its default "click": a click then executes nothing and a mouseenter executes it exactly once |
| BinderProperties.EnterKeyExecutes | lib/ko-command.ts:150-156 | With `commandExecuteOnEnter`, a `keydown` of key 13 executes the command whenever the variant's gate is open |
| BinderProperties.EnterKeyScenario | test/ko-command.spec.ts:343-364 | A bare command bound to a text input with `commandExecuteOnEnter: true` and no event list binds enabled, and a `keydown` of key 13 executes it exactly once |
| BinderProperties.DispatchPassesViewModelAndEvent | lib/ko-command.ts:172 | Every execution a DOM event causes is `execute(viewModel, event)` for the target element |
| BinderProperties.TsAtMostOneWhilePending | lib/ko-command.ts:168-172 | In the TypeScript handler, when the action returns promises, one DOM event executes the command at most once |
| BinderProperties.JsIgnoresExecuting | lib/ko-command.js:93-99 | In the JavaScript handler, while `canExecute` is anything but `false` or `0` (undefined and null included), every matching event listener executes, even while an execution is pending |
| BinderProperties.CopiesDisagreeOnReentry | lib/ko-command.js:82-99 | With "click" listed twice and promise results, a click executes at most once in the TypeScript handler and twice in the JavaScript one |
| BinderProperties.StepKeepsLatest | lib/ko-command.ts:83-105 | A page step keeps `canExecute` agreeing with the latest raw value and leaves no stale callback, provided a re-evaluation does not overtake a pending promise |
| BinderProperties.RunKeepsLatest | lib/ko-command.ts:94-105 | The same agreement holds after any run in which the raw predicate waits for its latest promise to settle before re-evaluating |
| BinderProperties.CreatedCommandReflectsLatest | lib/ko-command.ts:90-107 | From construction, through any such run, `canExecute` is the latest plain raw value, or false while the latest promise is pending, and no superseded promise is watched |
| BinderProperties.SettledStepKeepsCanExecute | lib/ko-command.ts:94-105 | Once the latest promise has settled, every step but a re-evaluation keeps `canExecute`, and the promise stays settled |
| BinderProperties.SettledRunKeepsCanExecute | lib/ko-command.ts:94-105 | The same holds for any run with no re-evaluation |
| BinderProperties.SettledValueStays | test/ko-command.spec.ts:125-143 | When the latest promise fulfils with v, `canExecute` is v, and when it rejects it stays false; either value lasts until the next re-evaluation |
| BinderProperties.ButtonClickScenario | test/ko-command.spec.ts:235-248 | A bare command bound to a lower-case `button` with default options starts enabled, and one click executes it once with the view model and the event |

## Left out

- Knockout itself: observables, computeds, dependency tracking and `applyBindings`. The computed's re-evaluations are `RawChanged` steps chosen by the environment.
- Q promises and timing: a promise is an object id. The environment chooses when and how it settles. The model does not force a promise to settle once, or with the same value each time it is observed.
- DOM effects: `addEventListener`, `preventDefault`, and event bubbling between bound elements. A browser also does not dispatch clicks to a disabled control; the model lets the listener gate alone decide.
- `result.done()` in the TypeScript listeners (lib/ko-command.ts:157-161, 173-177): the model ends the listener when `execute` returns. Calling `done` has no effect on the command, and the TypeError that the `in` test raises on a truthy primitive result is not modelled.
- `updateCanExecute` (lib/ko-command.ts:57-69, lib/ko-command.js:19-28): it is never called.
- Global registration on `ko`, the wrappers, and `this` binding.
- Commands.Call, Commands.Execute: do not model argument forwarding. `apply` passes the caller's arguments verbatim to the action. The action is opaque here and its completion is chosen by the environment. Only the binding's `(viewModel, event)` pair is recorded, in `Binder.Invocation`.
- JavaScript values beyond undefined, null, booleans, integers and plain objects: strings, NaN, fractions, arrays, and objects with their own `valueOf`. Loose equality with `false` and truthiness are stated only for the values kept.
- A truthy non-function `execute` or `canExecute` property, a non-object argument to `ko.command`, and an object with `execute` bound in place of a command. These fail with JavaScript TypeErrors outside the modelled paths.
- A null or undefined binding value: `command.execute` throws a TypeError before the "requires ko.command" check. `Binder.Bound` has only the command and an object without `execute`.
- A truthy `then` or `finally` property that is not a function. `JsValues.IsThenable` and `JsValues.IsFinallyAble` treat any truthy one as a promise. In the source, calling it throws a TypeError. For `finally`, `execute` would then throw with `isExecuting` left true, where the model watches the id and returns normally.
- A raw predicate that throws.
- `toUpperCase` beyond ASCII. The few non-ASCII letters that upper-case to ASCII ones are not treated.
- After the "no triggers" error, the `disabled` subscription stays attached to the element. The model records only the value written before the throw.
- The Jasmine specs in test/ are not modelled as such. Their scenarios appear as lemmas: `RejectThenRecover` and `ButtonClickScenario`.

=== FILE: ascii.dfy ===
/** ASCII upper-casing, as `toUpperCase()` acts on tag names and input types,
    and an independent case-insensitive comparison to check it against. */
module Ascii {

  predicate IsLower(ch: char)
  {
    'a' <= ch <= 'z'
  }

  function UpperChar(ch: char): (u: char)
    ensures !IsLower(u)
    ensures IsLower(ch) ==> u as int == ch as int - 32
    ensures !IsLower(ch) ==> u == ch
  {
    if IsLower(ch) then (ch as int - 32) as char else ch
  }

  /** `s.toUpperCase()` restricted to ASCII letters. */
  function Upper(s: string): (r: string)
    ensures |r| == |s|
    ensures forall i :: 0 <= i < |s| ==> r[i] == UpperChar(s[i])
  {
    if |s| == 0 then [] else [UpperChar(s[0])] + Upper(s[1..])
  }

  /** A string with no lower-case ASCII letter, such as "BUTTON". */
  predicate IsUpperWord(t: string)
  {
    forall i :: 0 <= i < |t| ==> !IsLower(t[i])
  }

  /** Two characters are the same letter up to ASCII case. */
  predicate SameLetter(x: char, y: char)
  {
    x == y
    || (IsLower(x) && y as int == x as int - 32)
    || (IsLower(y) && x as int == y as int - 32)
  }

  /** Case-insensitive equality, defined letter by letter without `Upper`. */
  predicate EqualsIgnoringCase(a: string, b: string)
  {
    |a| == |b| && forall i :: 0 <= i < |a| ==> SameLetter(a[i], b[i])
  }

  /** Upper-casing and comparing with an upper-case word is exactly
      case-insensitive comparison with it. */
  lemma UpperEqualsIffIgnoringCase(s: string, t: string)
    requires IsUpperWord(t)
    ensures Upper(s) == t <==> EqualsIgnoringCase(s, t)
  {
  }
}

=== FILE: basics.dfy ===
/** Small failure-compatible wrappers used across the model: an optional value,
    and a result that carries either a value or a setup error. */
module Basics {

  /** A value that may be absent (JavaScript's missing or falsy property). */
  datatype Option<+T> = None | Some(value: T)

  /** The outcome of an operation that can fail with a thrown error. */
  datatype Result<+R, +E> = Success(value: R) | Failure(error: E)
}

=== FILE: binder.dfy ===
/** `ko.bindingHandlers.command.init` without the DOM: the combined disable
    condition, trigger resolution, the two setup errors, and the listeners'
    gates. A `Page` is one command together with the elements bound to it;
    every change of the command pushes the disable condition to each element
    through the subscription the binding registered.

    The TypeScript source and its compiled JavaScript copy differ only in how
    a listener gates: `Ts` consults the combined condition, `Js` consults
    `canExecute() == false` alone. */
module Binder {
  import opened Basics
  import opened JsValues
  import opened Ascii
  import opened Commands

  /** Which copy of the binding handler runs. */
  datatype Variant = Ts | Js

  /** The two element properties the binding reads. */
  datatype Element = Element(tagName: string, inputType: string)

  /** A DOM event as the listeners see it: its type and its `which` key code. */
  datatype DomEvent = DomEvent(kind: string, which: int)

  /** A registered listener: the Enter-key `keydown` listener, or the listener
      for one trigger event name. */
  datatype Listener = EnterKey | OnEvent(name: string)

  /** The per-element state of a successful binding. */
  datatype Binding = Binding(
    viewModel: JsValue,
    onEnter: bool,
    triggers: seq<string>,
    disabled: bool)

  /** The `command:` binding's value: the command of the page, or a value
      without an `execute` property. */
  datatype Bound = BoundCommand | BoundOther

  /** The two errors `init` throws. When there are no triggers, `disabled` has
      already been written by then; `disabledLeft` is that value. */
  datatype BindError = NotACommand | NoTriggers(disabledLeft: bool)

  datatype Page = Page(command: Command, bindings: seq<Binding>)

  /** One call `command.execute(viewModel, event)` made by a listener. */
  datatype Invocation = Invocation(data: JsValue, event: DomEvent, result: Completion)

  /** `command.canExecute() == false || command.isExecuting()`. */
  predicate DisableCondition(c: Command)
  {
    LooseEqualsFalse(c.canExecute) || c.isExecuting
  }

  /** The elements that are triggered by a click without being told: a button,
      a link, or an input of type button, with tag and type compared without
      regard to case. Stated letter by letter, independently of `Upper`. */
  predicate ClickByDefault(el: Element)
  {
    || EqualsIgnoringCase(el.tagName, "BUTTON")
    || EqualsIgnoringCase(el.tagName, "A")
    || (EqualsIgnoringCase(el.tagName, "INPUT") && EqualsIgnoringCase(el.inputType, "BUTTON"))
  }

  /** getCommandExecuteTriggers: buttons, links and button inputs default to
      "click"; every other element has no default trigger. Tag and type are
      compared after upper-casing, so case does not matter. */
  function DefaultTriggers(el: Element): (r: seq<string>)
    ensures r == ["click"] <==> ClickByDefault(el)
    ensures r != ["click"] ==> r == []
  {
    UpperEqualsIffIgnoringCase(el.tagName, "BUTTON");
    UpperEqualsIffIgnoringCase(el.tagName, "A");
    UpperEqualsIffIgnoringCase(el.tagName, "INPUT");
    UpperEqualsIffIgnoringCase(el.inputType, "BUTTON");
    var name := Upper(el.tagName);
    if name == "BUTTON" || name == "A" || (name == "INPUT" && Upper(el.inputType) == "BUTTON") then
      ["click"]
    else
      []
  }

  /** `commandExecuteOnEvents || getCommandExecuteTriggers(element)`: a supplied
      array is truthy even when empty, so it always wins; without one the
      element gets "click" exactly when it is clicked by default. */
  function ResolveTriggers(explicit: Option<seq<string>>, el: Element): (r: seq<string>)
    ensures explicit.Some? ==> r == explicit.value
    ensures explicit.None? ==> (r == ["click"] <==> ClickByDefault(el))
    ensures explicit.None? ==> (r == [] <==> !ClickByDefault(el))
  {
    match explicit
    case Some(names) => names
    case None => DefaultTriggers(el)
  }

  /** `init`: reject a value without `execute`; write the initial disabled
      state; resolve the Enter flag (undefined reads as false) and the trigger
      list; reject a binding that has neither. On success the element joins the
      page with its listeners. */
  function Init(p: Page, bound: Bound, el: Element, onEnter: JsValue,
                explicit: Option<seq<string>>, viewModel: JsValue): (r: Result<Page, BindError>)
    ensures r == Failure(NotACommand) <==> bound.BoundOther?
    ensures r == Failure(NoTriggers(DisableCondition(p.command))) <==>
      bound.BoundCommand? && !Truthy(onEnter) && |ResolveTriggers(explicit, el)| == 0
    ensures r.Failure? ==> r.error == NotACommand || r.error == NoTriggers(DisableCondition(p.command))
    ensures r.Success? ==>
      && r.value.command == p.command
      && r.value.bindings == p.bindings
           + [Binding(viewModel, Truthy(onEnter), ResolveTriggers(explicit, el), DisableCondition(p.command))]
  {
    if bound.BoundOther? then Failure(NotACommand)
    else
      var disabled := DisableCondition(p.command);
      var enter := Truthy(onEnter);
      var triggers := ResolveTriggers(explicit, el);
      if !enter && |triggers| == 0 then Failure(NoTriggers(disabled))
      else Success(Page(p.command, p.bindings + [Binding(viewModel, enter, triggers, disabled)]))
  }

  /** One listener per trigger name, in list order (duplicates included). */
  function EventListeners(names: seq<string>): (ls: seq<Listener>)
    ensures |ls| == |names|
    ensures forall j :: 0 <= j < |names| ==> ls[j] == OnEvent(names[j])
  {
    if |names| == 0 then [] else [OnEvent(names[0])] + EventListeners(names[1..])
  }

  /** The element's listeners in registration order: the Enter listener first
      when enabled, then one per trigger. */
  function Listeners(b: Binding): (r: seq<Listener>)
    ensures b.onEnter ==> r == [EnterKey] + EventListeners(b.triggers)
    ensures !b.onEnter ==> r == EventListeners(b.triggers)
    ensures |r| == |b.triggers| + (if b.onEnter then 1 else 0)
  {
    (if b.onEnter then [EnterKey] else []) + EventListeners(b.triggers)
  }

  /** Whether the browser calls listener `l` for event `ev`. */
  predicate Matches(l: Listener, ev: DomEvent)
  {
    match l
    case EnterKey => ev.kind == "keydown"
    case OnEvent(name) => ev.kind == name
  }

  /** The listener's early-return test, negated: it goes on to call `execute`. */
  predicate GateOpen(variant: Variant, c: Command, l: Listener, ev: DomEvent)
  {
    var blocked := match variant
      case Ts => DisableCondition(c)
      case Js => LooseEqualsFalse(c.canExecute);
    match l
    case EnterKey => ev.which == 13 && !blocked
    case OnEvent(_) => !blocked
  }

  /** `q` is `p` with, at most, other `disabled` values: the same number of
      elements, each with the same view model, Enter flag and triggers. */
  predicate OnlyDisabledMoved(p: Page, q: Page)
  {
    && |q.bindings| == |p.bindings|
    && forall i :: 0 <= i < |p.bindings| ==> q.bindings[i].(disabled := p.bindings[i].disabled) == p.bindings[i]
  }

  /** The command changes to `c2`; the `combinedDisableComputed` subscription
      writes the new condition into every element's `disabled` when the
      condition's value changed, and is not notified otherwise. */
  function Refresh(p: Page, c2: Command): (r: Page)
    ensures r.command == c2 && OnlyDisabledMoved(p, r)
    ensures DisableCondition(c2) == DisableCondition(p.command) ==> r.bindings == p.bindings
    ensures DisableCondition(c2) != DisableCondition(p.command) ==>
      forall i :: 0 <= i < |r.bindings| ==> r.bindings[i].disabled == DisableCondition(c2)
  {
    var was := DisableCondition(p.command);
    var now := DisableCondition(c2);
    if now == was then Page(c2, p.bindings)
    else Page(c2, seq(|p.bindings|, i requires 0 <= i < |p.bindings| => p.bindings[i].(disabled := now)))
  }

  /** The listeners `ls` of the target element run in order for `ev`; each
      that matches and whose gate is open calls `execute(viewModel, ev)`. The
      `k`-th such call of this dispatch completes as `act(k)`. A throw from one
      listener does not stop the browser from running the next. */
  function RunListeners(variant: Variant, p: Page, viewModel: JsValue, ev: DomEvent,
                        ls: seq<Listener>, act: nat -> Completion, k: nat): (r: (Page, seq<Invocation>))
    ensures |r.1| <= |ls|
    ensures OnlyDisabledMoved(p, r.0)
    ensures forall j :: 0 <= j < |r.1| ==> r.1[j].data == viewModel && r.1[j].event == ev
    ensures r.0.command.options == p.command.options
    ensures r.0.command.canExecute == p.command.canExecute
    ensures r.0.command.raw == p.command.raw && r.0.command.fulfilWatch == p.command.fulfilWatch
    ensures |r.1| == 0 ==> r.0 == p
    decreases |ls|
  {
    if |ls| == 0 then (p, [])
    else if Matches(ls[0], ev) && GateOpen(variant, p.command, ls[0], ev) then
      var (c2, result) := Execute(p.command, act(k));
      var (p2, calls) := RunListeners(variant, Refresh(p, c2), viewModel, ev, ls[1..], act, k + 1);
      (p2, [Invocation(viewModel, ev, result)] + calls)
    else
      RunListeners(variant, p, viewModel, ev, ls[1..], act, k)
  }

  /** The events of the page: the command used directly, promise settlement,
      re-evaluation of the raw predicate, and DOM events on bound elements. */
  datatype Event =
    | DirectCall(act: Completion)
    | ExecuteCall(act: Completion)
    | RawChanged(v: JsValue)
    | Fulfilled(promise: nat, v: JsValue)
    | Rejected(promise: nat)
    | Fired(target: nat, ev: DomEvent, acts: nat -> Completion)

  /** What a step hands back to its caller. */
  datatype Output = Returned(result: Completion) | Dispatched(calls: seq<Invocation>) | Silent

  /** One step of the page. Only the elements' `disabled` values can move;
      a direct call changes nothing, and a DOM event only executes, so it
      leaves `canExecute` and the raw predicate's state alone. */
  function Step(variant: Variant, p: Page, e: Event): (r: (Page, Output))
    ensures OnlyDisabledMoved(p, r.0)
    ensures r.0.command.options == p.command.options
    ensures e.DirectCall? ==> r.0 == p
    ensures e.Fired? ==> r.1.Dispatched?
    ensures e.Fired? ==>
      && r.0.command.canExecute == p.command.canExecute
      && r.0.command.raw == p.command.raw
      && r.0.command.fulfilWatch == p.command.fulfilWatch
  {
    match e
    case DirectCall(act) =>
      var (c2, result) := Call(p.command, act);
      (Refresh(p, c2), Returned(result))
    case ExecuteCall(act) =>
      var (c2, result) := Execute(p.command, act);
      (Refresh(p, c2), Returned(result))
    case RawChanged(v) => (Refresh(p, RawChange(p.command, v)), Silent)
    case Fulfilled(q, v) => (Refresh(p, Fulfil(p.command, q, v)), Silent)
    case Rejected(q) => (Refresh(p, Reject(p.command, q)), Silent)
    case Fired(i, ev, acts) =>
      if i < |p.bindings| then
        var b := p.bindings[i];
        var (p2, calls) := RunListeners(variant, p, b.viewModel, ev, Listeners(b), acts, 0);
        (p2, Dispatched(calls))
      else
        (p, Dispatched([]))
  }

  /** A sequence of steps. However long, it never unbinds an element or
      changes what an element was bound with, and the command keeps its
      action and predicate. */
  function Run(variant: Variant, p: Page, es: seq<Event>): (r: Page)
    ensures OnlyDisabledMoved(p, r)
    ensures r.command.options == p.command.options
    decreases |es|
  {
    if |es| == 0 then p else Run(variant, Step(variant, p, es[0]).0, es[1..])
  }
}

=== FILE: binder_properties.dfy ===
/** Properties of the command binding: trigger resolution, the setup errors,
    listener gating in both copies of the handler, and the element's
    `disabled` property mirroring the combined condition across every step. */
module BinderProperties {
  import opened Basics
  import opened JsValues
  import opened Ascii
  import opened Commands
  import opened Binder
  import opened CommandProperties

  /** Binding with an explicit empty list and no Enter trigger fails, even on
      a button whose default would have been "click". */
  lemma EmptyTriggerListFails(p: Page, el: Element, onEnter: JsValue, viewModel: JsValue)
    requires !Truthy(onEnter)
    ensures Init(p, BoundCommand, el, onEnter, Some([]), viewModel).Failure?
    ensures Init(p, BoundCommand, el, onEnter, Some([]), viewModel).error.NoTriggers?
  {
  }

  /** Every bound element's `disabled` equals the combined condition. */
  ghost predicate Mirrored(p: Page)
  {
    forall i :: 0 <= i < |p.bindings| ==> p.bindings[i].disabled == DisableCondition(p.command)
  }

  /** A successful binding writes the condition into the new element at once. */
  lemma InitKeepsMirror(p: Page, bound: Bound, el: Element, onEnter: JsValue,
                        explicit: Option<seq<string>>, viewModel: JsValue)
    requires Mirrored(p)
    ensures var r := Init(p, bound, el, onEnter, explicit, viewModel);
      r.Success? ==> Mirrored(r.value)
  {
  }

  /** The subscription keeps the mirror: it writes only on a change of the
      condition, and the mirror makes the skipped writes unnecessary. */
  lemma RefreshKeepsMirror(p: Page, c2: Command)
    requires Mirrored(p)
    ensures Mirrored(Refresh(p, c2))
  {
  }

  lemma {:induction false} RunListenersKeepMirror(variant: Variant, p: Page, viewModel: JsValue,
                                                  ev: DomEvent, ls: seq<Listener>,
                                                  act: nat -> Completion, k: nat)
    requires Mirrored(p)
    ensures Mirrored(RunListeners(variant, p, viewModel, ev, ls, act, k).0)
    decreases |ls|
  {
    if |ls| == 0 {
    } else if Matches(ls[0], ev) && GateOpen(variant, p.command, ls[0], ev) {
      var c2 := Execute(p.command, act(k)).0;
      RefreshKeepsMirror(p, c2);
      RunListenersKeepMirror(variant, Refresh(p, c2), viewModel, ev, ls[1..], act, k + 1);
    } else {
      RunListenersKeepMirror(variant, p, viewModel, ev, ls[1..], act, k);
    }
  }

  /** Every step of the page, in either copy of the handler, keeps each
      element's `disabled` equal to `canExecute == false || isExecuting`. */
  lemma StepKeepsMirror(variant: Variant, p: Page, e: Event)
    requires Mirrored(p)
    ensures Mirrored(Step(variant, p, e).0)
  {
    match e
    case DirectCall(act) => RefreshKeepsMirror(p, Call(p.command, act).0);
    case ExecuteCall(act) => RefreshKeepsMirror(p, Execute(p.command, act).0);
    case RawChanged(v) => RefreshKeepsMirror(p, RawChange(p.command, v));
    case Fulfilled(q, v) => RefreshKeepsMirror(p, Fulfil(p.command, q, v));
    case Rejected(q) => RefreshKeepsMirror(p, Reject(p.command, q));
    case Fired(i, ev, acts) =>
      if i < |p.bindings| {
        var b := p.bindings[i];
        RunListenersKeepMirror(variant, p, b.viewModel, ev, Listeners(b), acts, 0);
      }
  }

  lemma {:induction false} RunKeepsMirror(variant: Variant, p: Page, es: seq<Event>)
    requires Mirrored(p)
    ensures Mirrored(Run(variant, p, es))
    decreases |es|
  {
    if |es| > 0 {
      StepKeepsMirror(variant, p, es[0]);
      RunKeepsMirror(variant, Step(variant, p, es[0]).0, es[1..]);
    }
  }

  /** When no listener both matches the event and has an open gate, the
      dispatch calls nothing and changes nothing. */
  lemma {:induction false} ClosedListenersRunNothing(variant: Variant, p: Page, viewModel: JsValue,
                                                     ev: DomEvent, ls: seq<Listener>,
                                                     act: nat -> Completion, k: nat)
    requires forall j :: 0 <= j < |ls| ==> !(Matches(ls[j], ev) && GateOpen(variant, p.command, ls[j], ev))
    ensures RunListeners(variant, p, viewModel, ev, ls, act, k) == (p, [])
    decreases |ls|
  {
    if |ls| > 0 {
      assert !(Matches(ls[0], ev) && GateOpen(variant, p.command, ls[0], ev));
      ClosedListenersRunNothing(variant, p, viewModel, ev, ls[1..], act, k);
    }
  }

  /** TypeScript copy: while the combined condition holds, no listener
      executes. */
  lemma TsDisabledRunsNothing(p: Page, viewModel: JsValue, ev: DomEvent, ls: seq<Listener>,
                              act: nat -> Completion, k: nat)
    requires DisableCondition(p.command)
    ensures RunListeners(Ts, p, viewModel, ev, ls, act, k) == (p, [])
  {
  }

  /** JavaScript copy: while `canExecute == false`, no listener executes. */
  lemma JsCannotExecuteRunsNothing(p: Page, viewModel: JsValue, ev: DomEvent, ls: seq<Listener>,
                                   act: nat -> Completion, k: nat)
    requires LooseEqualsFalse(p.command.canExecute)
    ensures RunListeners(Js, p, viewModel, ev, ls, act, k) == (p, [])
  {
  }

  /** An unresolved (undefined) `canExecute` does not disable: the condition
      is then exactly `isExecuting`. */
  lemma UndefinedDoesNotDisable(c: Command)
    requires c.canExecute == Undefined
    ensures DisableCondition(c) <==> c.isExecuting
  {
  }

  /** `canExecute() == false` holds for `false` and `0` only, so the element
      is disabled exactly when the command reads one of those or is
      executing. */
  lemma DisableConditionCases(c: Command)
    ensures DisableCondition(c) <==> c.canExecute == Bool(false) || c.canExecute == Num(0) || c.isExecuting
  {
  }

  /** The two copies' listener gates: the TypeScript gate is the JavaScript
      gate with `isExecuting` added, and an Enter listener stays shut for any
      key but 13 in both. */
  lemma GatesDifferByExecuting(c: Command, l: Listener, ev: DomEvent)
    ensures GateOpen(Ts, c, l, ev) <==> GateOpen(Js, c, l, ev) && !c.isExecuting
    ensures GateOpen(Js, c, l, ev) ==> c.canExecute != Bool(false) && c.canExecute != Num(0)
    ensures l.EnterKey? && ev.which != 13 ==> !GateOpen(Ts, c, l, ev) && !GateOpen(Js, c, l, ev)
  {
  }

  /** An element's listeners are its Enter listener and one per trigger. */
  lemma ListenersOfBinding(b: Binding, j: nat)
    requires j < |Listeners(b)|
    ensures || (Listeners(b)[j] == EnterKey && b.onEnter)
            || (Listeners(b)[j].OnEvent? && Listeners(b)[j].name in b.triggers)
  {
    var off := if b.onEnter then 1 else 0;
    if j >= off {
      assert Listeners(b)[j] == EventListeners(b.triggers)[j - off];
    }
  }

  /** The Enter listener needs key code 13: a `keydown` with another key calls
      nothing unless "keydown" is itself a trigger. */
  lemma EnterNeedsKeyThirteen(variant: Variant, p: Page, i: nat, ev: DomEvent, acts: nat -> Completion)
    requires i < |p.bindings|
    requires ev.kind == "keydown" && ev.which != 13
    requires "keydown" !in p.bindings[i].triggers
    ensures Step(variant, p, Fired(i, ev, acts)) == (p, Dispatched([]))
  {
    var b := p.bindings[i];
    var ls := Listeners(b);
    forall j | 0 <= j < |ls|
      ensures !(Matches(ls[j], ev) && GateOpen(variant, p.command, ls[j], ev))
    {
      ListenersOfBinding(b, j);
    }
    ClosedListenersRunNothing(variant, p, b.viewModel, ev, ls, acts, 0);
  }

  /** An event that is neither a trigger of the element nor the Enter
      listener's `keydown` executes nothing and changes nothing. */
  lemma UnlistedEventRunsNothing(variant: Variant, p: Page, i: nat, ev: DomEvent, acts: nat -> Completion)
    requires i < |p.bindings|
    requires ev.kind !in p.bindings[i].triggers
    requires !(p.bindings[i].onEnter && ev.kind == "keydown")
    ensures Step(variant, p, Fired(i, ev, acts)) == (p, Dispatched([]))
  {
    var b := p.bindings[i];
    var ls := Listeners(b);
    forall j | 0 <= j < |ls|
      ensures !(Matches(ls[j], ev) && GateOpen(variant, p.command, ls[j], ev))
    {
      ListenersOfBinding(b, j);
    }
    ClosedListenersRunNothing(variant, p, b.viewModel, ev, ls, acts, 0);
  }

  /** A DOM event on a bound element runs that element's listeners. */
  lemma FiredDispatchesListeners(variant: Variant, p: Page, i: nat, ev: DomEvent, acts: nat -> Completion)
    requires i < |p.bindings|
    ensures var ls := Listeners(p.bindings[i]);
      Step(variant, p, Fired(i, ev, acts)).1
        == Dispatched(RunListeners(variant, p, p.bindings[i].viewModel, ev, ls, acts, 0).1)
  {
  }

  /** Every trigger name has its listener. */
  lemma TriggerHasListener(b: Binding, name: string)
    requires name in b.triggers
    ensures OnEvent(name) in Listeners(b)
  {
    var m :| 0 <= m < |b.triggers| && b.triggers[m] == name;
    var el := EventListeners(b.triggers);
    assert el[m] == OnEvent(name);
    if b.onEnter {
      assert Listeners(b)[m + 1] == OnEvent(name);
    } else {
      assert Listeners(b)[m] == OnEvent(name);
    }
  }

  /** Among listeners that include one for the event's own name, with the
      gate open, the first that matches executes: the dispatch calls at
      least once. */
  lemma {:induction false} ListedListenerRuns(variant: Variant, p: Page, viewModel: JsValue,
                                              ev: DomEvent, ls: seq<Listener>,
                                              act: nat -> Completion, k: nat)
    requires OnEvent(ev.kind) in ls
    requires GateOpen(variant, p.command, OnEvent(ev.kind), ev)
    ensures |RunListeners(variant, p, viewModel, ev, ls, act, k).1| >= 1
    decreases |ls|
  {
    if !(Matches(ls[0], ev) && GateOpen(variant, p.command, ls[0], ev)) {
      assert ls[0] != OnEvent(ev.kind);
      assert OnEvent(ev.kind) in ls[1..];
      ListedListenerRuns(variant, p, viewModel, ev, ls[1..], act, k);
    }
  }

  /** An event named among the element's triggers executes the command when
      the variant's gate is open. */
  lemma ListedEventExecutes(variant: Variant, p: Page, i: nat, ev: DomEvent, acts: nat -> Completion)
    requires i < |p.bindings|
    requires ev.kind in p.bindings[i].triggers
    requires GateOpen(variant, p.command, OnEvent(ev.kind), ev)
    ensures var out := Step(variant, p, Fired(i, ev, acts)).1;
      out.Dispatched? && |out.calls| >= 1
  {
    var b := p.bindings[i];
    TriggerHasListener(b, ev.kind);
    ListedListenerRuns(variant, p, b.viewModel, ev, Listeners(b), acts, 0);
    FiredDispatchesListeners(variant, p, i, ev, acts);
  }

  /** Custom triggers: a button bound to a ready command with only
      "mouseenter" listed loses its default "click"; a click then executes
      nothing and a mouseenter executes the command once. */
  lemma MouseenterTriggerScenario(variant: Variant, c: Command, viewModel: JsValue, which: int,
                                  acts: nat -> Completion)
    requires !DisableCondition(c)
    ensures var r := Init(Page(c, []), BoundCommand, Element("button", ""), Undefined, Some(["mouseenter"]), viewModel);
      && r.Success?
      && r.value.bindings == [Binding(viewModel, false, ["mouseenter"], false)]
      && Step(variant, r.value, Fired(0, DomEvent("click", which), acts)) == (r.value, Dispatched([]))
      && var out := Step(variant, r.value, Fired(0, DomEvent("mouseenter", which), acts)).1;
         out.Dispatched? && |out.calls| == 1
  {
    var p := Page(c, [Binding(viewModel, false, ["mouseenter"], false)]);
    UnlistedEventRunsNothing(variant, p, 0, DomEvent("click", which), acts);
    assert Listeners(p.bindings[0]) == [OnEvent("mouseenter")];
    RunSingleListener(variant, p, viewModel, DomEvent("mouseenter", which), OnEvent("mouseenter"), acts, 0);
  }

  /** With `commandExecuteOnEnter`, a `keydown` of key 13 executes the
      command whenever the variant's gate is open. */
  lemma EnterKeyExecutes(variant: Variant, p: Page, i: nat, ev: DomEvent, acts: nat -> Completion)
    requires i < |p.bindings|
    requires p.bindings[i].onEnter
    requires ev == DomEvent("keydown", 13)
    requires GateOpen(variant, p.command, EnterKey, ev)
    ensures var out := Step(variant, p, Fired(i, ev, acts)).1;
      out.Dispatched? && |out.calls| >= 1
  {
    assert Listeners(p.bindings[i])[0] == EnterKey;
  }

  /** A text input is not clicked by default. */
  lemma TextInputHasNoDefault()
    ensures DefaultTriggers(Element("input", "text")) == []
  {
    assert Upper("t") == "T";
    assert Upper("ut") == "UT";
    assert Upper("put") == "PUT";
    assert Upper("nput") == "NPUT";
    assert Upper("input") == "INPUT";
  }

  /** A ready command bound with only the Enter listener: key 13 executes it
      once. */
  lemma EnterOnReadyInput(variant: Variant, p: Page, viewModel: JsValue, acts: nat -> Completion)
    requires p.bindings == [Binding(viewModel, true, [], false)]
    requires !DisableCondition(p.command)
    ensures var out := Step(variant, p, Fired(0, DomEvent("keydown", 13), acts)).1;
      out.Dispatched? && |out.calls| == 1
  {
    assert Listeners(p.bindings[0]) == [EnterKey];
    RunSingleListener(variant, p, viewModel, DomEvent("keydown", 13), EnterKey, acts, 0);
  }

  /** The Enter scenario: a bare command bound to a text input with
      `commandExecuteOnEnter: true` and no event list binds enabled, and a
      `keydown` of key 13 executes the action exactly once. */
  lemma EnterKeyScenario(variant: Variant, f: FnRef, userRaw: JsValue, viewModel: JsValue,
                         acts: nat -> Completion)
    ensures var c := Create(CommandArg(Some(f), None, None), userRaw);
      var r := Init(Page(c, []), BoundCommand, Element("input", "text"), Bool(true), None, viewModel);
      && r.Success?
      && r.value == Page(c, [Binding(viewModel, true, [], false)])
      && var out := Step(variant, r.value, Fired(0, DomEvent("keydown", 13), acts)).1;
         out.Dispatched? && |out.calls| == 1
  {
    var c := Create(CommandArg(Some(f), None, None), userRaw);
    assert !DisableCondition(c);
    TextInputHasNoDefault();
    EnterOnReadyInput(variant, Page(c, [Binding(viewModel, true, [], false)]), viewModel, acts);
  }

  /** Every execution a DOM event causes is `execute(viewModel, event)` with
      the element's view model and the event itself. */
  lemma DispatchPassesViewModelAndEvent(variant: Variant, p: Page, i: nat, ev: DomEvent,
                                        acts: nat -> Completion)
    requires i < |p.bindings|
    ensures var out := Step(variant, p, Fired(i, ev, acts)).1;
      && out.Dispatched?
      && forall j :: 0 <= j < |out.calls| ==>
           out.calls[j].data == p.bindings[i].viewModel && out.calls[j].event == ev
  {
  }

  /** Every `k`-th action result from `k0` on is a pending promise. */
  ghost predicate AllPending(act: nat -> Completion, k0: nat)
  {
    forall k: nat :: k >= k0 ==> act(k).Normal? && IsFinallyAble(act(k).value)
  }

  /** TypeScript copy: once an execution is pending the element is disabled,
      so one DOM event executes the command at most once when the action
      returns promises. */
  lemma {:induction false} TsAtMostOneWhilePending(p: Page, viewModel: JsValue, ev: DomEvent,
                                                   ls: seq<Listener>, act: nat -> Completion, k: nat)
    requires p.command.options.execute.Callable?
    requires AllPending(act, k)
    ensures |RunListeners(Ts, p, viewModel, ev, ls, act, k).1| <= 1
    decreases |ls|
  {
    if |ls| == 0 {
    } else if Matches(ls[0], ev) && GateOpen(Ts, p.command, ls[0], ev) {
      var c2 := Execute(p.command, act(k)).0;
      assert c2.isExecuting;
      TsDisabledRunsNothing(Refresh(p, c2), viewModel, ev, ls[1..], act, k + 1);
    } else {
      TsAtMostOneWhilePending(p, viewModel, ev, ls[1..], act, k);
    }
  }

  /** JavaScript copy: the listener ignores `isExecuting`, so with
      `canExecute` anything but false or 0 every matching listener executes,
      even while an earlier execution is pending. */
  lemma {:induction false} JsIgnoresExecuting(p: Page, viewModel: JsValue, ev: DomEvent,
                                              names: seq<string>, act: nat -> Completion, k: nat)
    requires !LooseEqualsFalse(p.command.canExecute)
    requires forall j :: 0 <= j < |names| ==> names[j] == ev.kind
    ensures |RunListeners(Js, p, viewModel, ev, EventListeners(names), act, k).1| == |names|
    decreases |names|
  {
    if |names| > 0 {
      var ls := EventListeners(names);
      assert ls[0] == OnEvent(names[0]);
      assert ls[1..] == EventListeners(names[1..]);
      var c2 := Execute(p.command, act(k)).0;
      JsIgnoresExecuting(Refresh(p, c2), viewModel, ev, names[1..], act, k + 1);
    }
  }

  /** The two copies disagree on a double trigger: with "click" listed twice
      and a pending execution, the TypeScript copy executes at most once per
      click, the JavaScript copy twice. */
  lemma CopiesDisagreeOnReentry(p: Page, viewModel: JsValue, which: int, act: nat -> Completion)
    requires p.command.options.execute.Callable?
    requires p.command.canExecute == Bool(true)
    requires AllPending(act, 0)
    ensures var ls := EventListeners(["click", "click"]);
      var ev := DomEvent("click", which);
      && |RunListeners(Ts, p, viewModel, ev, ls, act, 0).1| <= 1
      && |RunListeners(Js, p, viewModel, ev, ls, act, 0).1| == 2
  {
  }

  /** A lone listener that matches and is open executes once. */
  lemma RunSingleListener(variant: Variant, p: Page, viewModel: JsValue, ev: DomEvent, l: Listener,
                          act: nat -> Completion, k: nat)
    requires Matches(l, ev) && GateOpen(variant, p.command, l, ev)
    ensures RunListeners(variant, p, viewModel, ev, [l], act, k).0 == Refresh(p, Execute(p.command, act(k)).0)
    ensures RunListeners(variant, p, viewModel, ev, [l], act, k).1
      == [Invocation(viewModel, ev, Execute(p.command, act(k)).1)]
  {
  }

  /** A lower-case "button" defaults to the "click" trigger. */
  lemma ButtonDefaultsToClick()
    ensures DefaultTriggers(Element("button", "")) == ["click"]
  {
    assert Upper("n") == "N";
    assert Upper("on") == "ON";
    assert Upper("ton") == "TON";
    assert Upper("tton") == "TTON";
    assert Upper("utton") == "UTTON";
    assert Upper("button") == "BUTTON";
  }

  /** A ready command bound to a "button" with default options: one click on
      it executes the action once and leaves the element enabled. */
  lemma ClickOnReadyButton(variant: Variant, p: Page, viewModel: JsValue, which: int, v: JsValue)
    requires p.bindings == [Binding(viewModel, false, ["click"], false)]
    requires p.command.options.execute.Callable? && !DisableCondition(p.command)
    requires !IsFinallyAble(v)
    ensures var click := DomEvent("click", which);
      var out := Step(variant, p, Fired(0, click, (k: nat) => Normal(v)));
      && out.1 == Dispatched([Invocation(viewModel, click, Normal(v))])
      && !out.0.bindings[0].disabled
  {
    assert Listeners(p.bindings[0]) == [OnEvent("click")];
    RunSingleListener(variant, p, viewModel, DomEvent("click", which), OnEvent("click"), (k: nat) => Normal(v), 0);
  }

  /** A command built from a bare action, bound with default options to a
      lower-case "button": the element starts enabled and one click executes
      the action exactly once, with the view model and the click event. */
  lemma ButtonClickScenario(variant: Variant, f: FnRef, userRaw: JsValue, viewModel: JsValue,
                            which: int, v: JsValue)
    requires !IsFinallyAble(v)
    ensures var c := Create(CommandArg(Some(f), None, None), userRaw);
      var r := Init(Page(c, []), BoundCommand, Element("button", ""), Undefined, None, viewModel);
      && r.Success?
      && r.value == Page(c, [Binding(viewModel, false, ["click"], false)])
      && var click := DomEvent("click", which);
         var out := Step(variant, r.value, Fired(0, click, (k: nat) => Normal(v)));
         && out.1 == Dispatched([Invocation(viewModel, click, Normal(v))])
         && !out.0.bindings[0].disabled
  {
    var c := Create(CommandArg(Some(f), None, None), userRaw);
    assert !DisableCondition(c);
    ButtonDefaultsToClick();
    ClickOnReadyButton(variant, Page(c, [Binding(viewModel, false, ["click"], false)]), viewModel, which, v);
  }

  /** The raw predicate is re-evaluated only once its latest promise has
      settled: the discipline under which `canExecute` can be trusted. */
  ghost predicate Sequenced(variant: Variant, p: Page, es: seq<Event>)
    decreases |es|
  {
    |es| == 0 ||
    ((es[0].RawChanged? ==> !LatestPending(p.command))
     && Sequenced(variant, Step(variant, p, es[0]).0, es[1..]))
  }

  /** One page step keeps `canExecute` in agreement with the latest
      evaluation, and leaves no stale callback, provided a re-evaluation does
      not overtake a pending promise. */
  lemma StepKeepsLatest(variant: Variant, p: Page, e: Event)
    requires ReflectsLatest(p.command) && NoStaleWatch(p.command)
    requires e.RawChanged? ==> !LatestPending(p.command)
    ensures ReflectsLatest(Step(variant, p, e).0.command)
    ensures NoStaleWatch(Step(variant, p, e).0.command)
  {
    match e
    case DirectCall(_) =>
    case ExecuteCall(act) =>
      StepsKeepReflectsLatest(p.command, act, Undefined, 0, Undefined);
      StepsKeepNoStaleWatch(p.command, act, Undefined, 0, Undefined);
    case RawChanged(v) =>
      StepsKeepReflectsLatest(p.command, Normal(Undefined), v, 0, Undefined);
      StepsKeepNoStaleWatch(p.command, Normal(Undefined), v, 0, Undefined);
    case Fulfilled(q, w) =>
      StepsKeepReflectsLatest(p.command, Normal(Undefined), Undefined, q, w);
      StepsKeepNoStaleWatch(p.command, Normal(Undefined), Undefined, q, w);
    case Rejected(q) =>
      StepsKeepReflectsLatest(p.command, Normal(Undefined), Undefined, q, Undefined);
      StepsKeepNoStaleWatch(p.command, Normal(Undefined), Undefined, q, Undefined);
    case Fired(_, _, _) =>
  }

  lemma {:induction false} RunKeepsLatest(variant: Variant, p: Page, es: seq<Event>)
    requires ReflectsLatest(p.command) && NoStaleWatch(p.command)
    requires Sequenced(variant, p, es)
    ensures ReflectsLatest(Run(variant, p, es).command)
    ensures NoStaleWatch(Run(variant, p, es).command)
    decreases |es|
  {
    if |es| > 0 {
      StepKeepsLatest(variant, p, es[0]);
      RunKeepsLatest(variant, Step(variant, p, es[0]).0, es[1..]);
    }
  }

  /** From construction on, through any sequenced run of executions, DOM
      events, re-evaluations and settlements, `canExecute` is the latest plain
      value of the raw predicate, or false while its latest promise is
      pending. */
  lemma CreatedCommandReflectsLatest(variant: Variant, arg: CommandArg, userRaw: JsValue,
                                     bindings: seq<Binding>, es: seq<Event>)
    requires Sequenced(variant, Page(Create(arg, userRaw), bindings), es)
    ensures var c := Run(variant, Page(Create(arg, userRaw), bindings), es).command;
      && (IsThenable(c.raw) && c.raw.id in c.fulfilWatch ==> c.canExecute == Bool(false))
      && (!IsThenable(c.raw) ==> c.canExecute == c.raw)
      && (forall q :: q in c.fulfilWatch ==> IsThenable(c.raw) && q == c.raw.id)
  {
    CreateReflectsLatest(arg, userRaw);
    RunKeepsLatest(variant, Page(Create(arg, userRaw), bindings), es);
  }

  /** Once the latest promise has settled, only a re-evaluation of the raw
      predicate changes `canExecute`: executions, settlements, direct calls
      and DOM events keep it, and keep the promise settled. */
  lemma SettledStepKeepsCanExecute(variant: Variant, p: Page, e: Event)
    requires NoStaleWatch(p.command) && !LatestPending(p.command)
    requires !e.RawChanged?
    ensures Step(variant, p, e).0.command.canExecute == p.command.canExecute
    ensures Step(variant, p, e).0.command.raw == p.command.raw
    ensures Step(variant, p, e).0.command.fulfilWatch == {}
  {
    assert p.command.fulfilWatch == {};
  }

  lemma {:induction false} SettledRunKeepsCanExecute(variant: Variant, p: Page, es: seq<Event>)
    requires NoStaleWatch(p.command) && !LatestPending(p.command)
    requires forall j :: 0 <= j < |es| ==> !es[j].RawChanged?
    ensures Run(variant, p, es).command.canExecute == p.command.canExecute
    decreases |es|
  {
    if |es| > 0 {
      SettledStepKeepsCanExecute(variant, p, es[0]);
      var p1 := Step(variant, p, es[0]).0;
      assert NoStaleWatch(p1.command) && !LatestPending(p1.command);
      SettledRunKeepsCanExecute(variant, p1, es[1..]);
    }
  }

  /** The settled case: when the latest promise fulfils with `v`, `canExecute`
      is `v`, and when it rejects, `canExecute` stays false; either value
      then holds through any steps up to the next re-evaluation. */
  lemma SettledValueStays(variant: Variant, p: Page, v: JsValue, es: seq<Event>)
    requires ReflectsLatest(p.command) && NoStaleWatch(p.command) && LatestPending(p.command)
    requires forall j :: 0 <= j < |es| ==> !es[j].RawChanged?
    ensures Run(variant, Step(variant, p, Fulfilled(p.command.raw.id, v)).0, es).command.canExecute == v
    ensures Run(variant, Step(variant, p, Rejected(p.command.raw.id)).0, es).command.canExecute == Bool(false)
  {
    var q := p.command.raw.id;
    StepsKeepNoStaleWatch(p.command, Normal(Undefined), Undefined, q, v);
    SettledRunKeepsCanExecute(variant, Step(variant, p, Fulfilled(q, v)).0, es);
    SettledRunKeepsCanExecute(variant, Step(variant, p, Rejected(q)).0, es);
  }
}

=== FILE: command_properties.dfy ===
/** Properties of `ko.command`: normalisation, the `isExecuting` lifecycle,
    the shared flag, and how the raw predicate's values and promises resolve
    into `canExecute`. */
module CommandProperties {
  import opened Basics
  import opened JsValues
  import opened Commands

  /** A pending Q-style promise: an object with both `then` and `finally`. */
  function Promise(id: nat): JsValue
  {
    Obj(id, true, true)
  }

  /** Seeding: a command built without `canExecute` reads `canExecute == true`
      and is not executing, before anything else happens. */
  lemma DefaultCommandIsReady(arg: CommandArg, userRaw: JsValue)
    requires arg.canExecute.None?
    ensures Create(arg, userRaw).canExecute == Bool(true)
    ensures !Create(arg, userRaw).isExecuting
  {
  }

  /** An ordinary result clears the flag before `execute` returns it, and
      nothing else about the command moves. */
  lemma SyncExecutionClears(c: Command, v: JsValue)
    requires c.options.execute.Callable?
    requires !IsFinallyAble(v)
    ensures Execute(c, Normal(v)) == (c.(isExecuting := false), Normal(v))
  {
  }

  /** A promise result keeps `isExecuting` true until it settles, and either
      settlement clears it. `canExecute` is not touched. */
  lemma PromiseExecutionLifecycle(c: Command, p: nat, v: JsValue)
    requires c.options.execute.Callable?
    ensures var (c1, r) := Execute(c, Normal(Promise(p)));
      && r == Normal(Promise(p))
      && c1.isExecuting
      && !Fulfil(c1, p, v).isExecuting
      && !Reject(c1, p).isExecuting
      && Reject(c1, p).canExecute == c.canExecute
  {
  }

  /** A throwing action (or a record without `execute`) escapes before the
      flag is reset, so `isExecuting` stays true. */
  lemma ThrowLeavesExecuting(c: Command, act: Completion)
    requires act.Abrupt? || c.options.execute.NotCallable?
    ensures Execute(c, act).0.isExecuting
    ensures Execute(c, act).1.Abrupt?
  {
  }

  /** Overlapping executions share one flag: settling the first of two
      pending promises clears `isExecuting` while the second is still pending. */
  lemma SharedFlagClearsEarly(c: Command, p: nat, q: nat, v: JsValue)
    requires c.options.execute.Callable?
    requires p != q
    ensures var c1 := Execute(c, Normal(Promise(p))).0;
      var c2 := Execute(c1, Normal(Promise(q))).0;
      && c2.isExecuting
      && !Fulfil(c2, p, v).isExecuting && q in Fulfil(c2, p, v).settleWatch
      && !Reject(c2, p).isExecuting && q in Reject(c2, p).settleWatch
  {
  }

  /** A new plain value of the raw predicate is copied into `canExecute`
      synchronously; an unchanged primitive notifies nobody. */
  lemma PlainValueCopied(c: Command, v: JsValue)
    requires c.options.canExecute.UserPredicate?
    requires !IsThenable(v)
    ensures !SamePrimitive(c.raw, v) ==> RawChange(c, v).canExecute == v
    ensures SamePrimitive(c.raw, v) ==> RawChange(c, v) == c
  {
  }

  /** A then-able raw value forces `canExecute` to false at once; fulfilment
      sets the fulfilled value, rejection leaves false in place. */
  lemma ThenableResolution(c: Command, p: nat, v: JsValue)
    requires c.options.canExecute.UserPredicate?
    ensures var c1 := RawChange(c, Promise(p));
      && c1.canExecute == Bool(false)
      && Fulfil(c1, p, v).canExecute == v
      && Reject(c1, p).canExecute == Bool(false)
  {
  }

  /** Only the raw predicate's evaluations and their fulfilments write
      `canExecute`; executing and settling an action's promise leave it. */
  lemma ExecutionLeavesCanExecute(c: Command, act: Completion, p: nat)
    requires p !in c.fulfilWatch
    ensures Execute(c, act).0.canExecute == c.canExecute
    ensures Reject(c, p).canExecute == c.canExecute
    ensures forall v :: Fulfil(c, p, v).canExecute == c.canExecute
  {
  }

  /** `canExecute` agrees with the latest evaluation of the raw predicate: the
      value itself when it is plain, false while its promise is pending. */
  ghost predicate ReflectsLatest(c: Command)
  {
    if IsThenable(c.raw) then c.raw.id in c.fulfilWatch ==> c.canExecute == Bool(false)
    else c.canExecute == c.raw
  }

  /** No `then` callback is registered on a superseded promise. */
  ghost predicate NoStaleWatch(c: Command)
  {
    forall q :: q in c.fulfilWatch ==> IsThenable(c.raw) && q == c.raw.id
  }

  /** A fresh command reflects its first evaluation and has nothing stale. */
  lemma CreateReflectsLatest(arg: CommandArg, userRaw: JsValue)
    ensures ReflectsLatest(Create(arg, userRaw))
    ensures NoStaleWatch(Create(arg, userRaw))
  {
  }

  /** From a state without stale callbacks, every command step keeps
      `canExecute` in agreement with the latest evaluation. */
  lemma StepsKeepReflectsLatest(c: Command, act: Completion, v: JsValue, p: nat, w: JsValue)
    requires ReflectsLatest(c) && NoStaleWatch(c)
    ensures ReflectsLatest(Execute(c, act).0)
    ensures ReflectsLatest(RawChange(c, v))
    ensures ReflectsLatest(Fulfil(c, p, w))
    ensures ReflectsLatest(Reject(c, p))
  {
    FulfilKeepsReflectsLatest(c, p, w);
  }

  lemma FulfilKeepsReflectsLatest(c: Command, p: nat, w: JsValue)
    requires ReflectsLatest(c) && NoStaleWatch(c)
    ensures ReflectsLatest(Fulfil(c, p, w))
  {
    if p in c.fulfilWatch {
      assert IsThenable(c.raw) && p == c.raw.id;
      assert c.raw.id !in Fulfil(c, p, w).fulfilWatch;
    }
  }

  /** The raw predicate's latest value is a promise whose `then` callback
      has not yet run. */
  ghost predicate LatestPending(c: Command)
  {
    IsThenable(c.raw) && c.raw.id in c.fulfilWatch
  }

  /** Executing and settling never leave a stale callback behind, and neither
      does a re-evaluation of the raw predicate once its latest promise has
      settled. */
  lemma StepsKeepNoStaleWatch(c: Command, act: Completion, v: JsValue, p: nat, w: JsValue)
    requires NoStaleWatch(c)
    ensures NoStaleWatch(Execute(c, act).0)
    ensures NoStaleWatch(Fulfil(c, p, w))
    ensures NoStaleWatch(Reject(c, p))
    ensures !LatestPending(c) ==> NoStaleWatch(RawChange(c, v))
  {
    if !LatestPending(c) && c.options.canExecute.UserPredicate? && !SamePrimitive(c.raw, v) {
      assert c.fulfilWatch == {};
    }
  }

  /** With no sequencing, a superseded promise that fulfils late overwrites
      the newer plain value, and re-evaluating to that same plain value does
      not repair it, since an unchanged primitive notifies nobody. */
  lemma StaleFulfilSticks(f: FnRef, g: FnRef, p: nat)
    ensures var c0 := Create(CommandArg(None, Some(f), Some(g)), Promise(p));
      var c1 := RawChange(c0, Bool(true));
      var c2 := Fulfil(c1, p, Bool(false));
      var c3 := RawChange(c2, Bool(true));
      && ReflectsLatest(c1) && !NoStaleWatch(c1)
      && c1.canExecute == Bool(true)
      && c2.canExecute == Bool(false) && c2.raw == Bool(true) && !ReflectsLatest(c2)
      && c3 == c2
  {
  }

  /** The rejection scenario: a rejected promise keeps `canExecute` false
      until a later fulfilling promise arrives. */
  lemma RejectThenRecover(f: FnRef, g: FnRef, p: nat, q: nat, s: nat)
    requires p != q && q != s && p != s
    ensures var c0 := Create(CommandArg(None, Some(f), Some(g)), Promise(p));
      var c1 := Fulfil(c0, p, Bool(false));
      var c2 := RawChange(c1, Promise(q));
      var c3 := Reject(c2, q);
      var c4 := RawChange(c3, Promise(s));
      var c5 := Fulfil(c4, s, Bool(true));
      && c0.canExecute == Bool(false) && c1.canExecute == Bool(false)
      && c2.canExecute == Bool(false) && c3.canExecute == Bool(false)
      && c4.canExecute == Bool(false) && c5.canExecute == Bool(true)
  {
  }
}

=== FILE: commands.dfy ===
/** `ko.command`: normalising its argument, the supervised `execute` path with
    its `isExecuting` flag, and the resolution of the raw `canExecute`
    predicate into the `canExecute` flag.

    Knockout observables become fields of an immutable record and every change
    is a pure step. Promises are opaque object ids: registering a `finally` or
    `then` callback records the id in a watch set, and the promise's later
    settlement arrives as an explicit `Fulfil` or `Reject` step. */
module Commands {
  import opened Basics
  import opened JsValues

  /** Identity of a user-supplied JavaScript function. */
  datatype FnRef = FnRef(id: nat)

  /** The argument of `ko.command`. `self` is Some when the argument is itself
      callable (a bare action); `execute` and `canExecute` are its own
      properties, None when absent or falsy. */
  datatype CommandArg = CommandArg(
    self: Option<FnRef>,
    execute: Option<FnRef>,
    canExecute: Option<FnRef>)

  /** What `options.execute` ends up holding: a function, or (for a record
      without `execute`) the record itself, which cannot be called. */
  datatype Target = Callable(fn: FnRef) | NotCallable

  /** What `options.canExecute` ends up holding: the user's predicate, or the
      default `function () { return true; }`. */
  datatype Predicate = UserPredicate(fn: FnRef) | AlwaysTrue

  datatype Options = Options(execute: Target, canExecute: Predicate)

  /** normaliseOptions: `execute` is the argument's own `execute` property, or
      else the argument itself; `canExecute` is its own property, or else the
      constant-true default. */
  function Normalise(arg: CommandArg): (o: Options)
    ensures arg.execute.Some? ==> o.execute == Callable(arg.execute.value)
    ensures arg.execute.None? && arg.self.Some? ==> o.execute == Callable(arg.self.value)
    ensures o.execute.NotCallable? <==> arg.execute.None? && arg.self.None?
    ensures arg.canExecute.Some? ==> o.canExecute == UserPredicate(arg.canExecute.value)
    ensures o.canExecute == AlwaysTrue <==> arg.canExecute.None?
  {
    var execute :=
      if arg.execute.Some? then Callable(arg.execute.value)
      else if arg.self.Some? then Callable(arg.self.value)
      else NotCallable;
    var canExecute :=
      if arg.canExecute.Some? then UserPredicate(arg.canExecute.value) else AlwaysTrue;
    Options(execute, canExecute)
  }

  /** The observable state of one command.
      - `isExecuting`, `canExecute`: the two observables.
      - `raw`: the last value of the `canExecuteRaw` computed.
      - `settleWatch`: promises returned by the action whose `finally`
        callback (clear `isExecuting`) is registered and has not run.
      - `fulfilWatch`: promises from `canExecuteRaw` whose `then` callback
        (copy the fulfilled value into `canExecute`) has not run. */
  datatype Command = Command(
    options: Options,
    isExecuting: bool,
    canExecute: JsValue,
    raw: JsValue,
    settleWatch: set<nat>,
    fulfilWatch: set<nat>)

  /** `options.execute.apply(this, arguments)`. The user action is opaque: `act`
      is how it completes. Calling the non-callable target throws TypeError. */
  function Invoke(o: Options, act: Completion): (r: Completion)
    ensures o.execute.Callable? ==> r == act
    ensures o.execute.NotCallable? ==> r == Abrupt(NotAFunction)
  {
    match o.execute
    case Callable(_) => act
    case NotCallable => Abrupt(NotAFunction)
  }

  /** The `canExecuteRaw` subscriber: a then-able forces `canExecute` to false
      and registers a fulfilment callback; anything else is copied across. */
  function Resolve(c: Command, v: JsValue): (r: Command)
    ensures IsThenable(v) ==> r.canExecute == Bool(false) && r.fulfilWatch == c.fulfilWatch + {v.id}
    ensures !IsThenable(v) ==> r.canExecute == v && r.fulfilWatch == c.fulfilWatch
    ensures r.options == c.options && r.raw == c.raw
    ensures r.isExecuting == c.isExecuting && r.settleWatch == c.settleWatch
  {
    if IsThenable(v) then
      c.(canExecute := Bool(false), fulfilWatch := c.fulfilWatch + {v.id})
    else
      c.(canExecute := v)
  }

  /** The first value of `canExecuteRaw`, computed when the command is built:
      the default predicate yields `true`; a user predicate yields `userRaw`. */
  function FirstRaw(o: Options, userRaw: JsValue): JsValue
  {
    match o.canExecute
    case AlwaysTrue => Bool(true)
    case UserPredicate(_) => userRaw
  }

  /** `ko.command(arg)`. Both flags start as fresh observables (`isExecuting`
      false, `canExecute` undefined); the raw predicate is evaluated once and
      its value is pushed through the subscriber by `notifySubscribers`. */
  function Create(arg: CommandArg, userRaw: JsValue): (c: Command)
    ensures c.options == Normalise(arg)
    ensures !c.isExecuting && c.settleWatch == {}
    ensures arg.canExecute.None? ==> c.raw == Bool(true)
    ensures arg.canExecute.Some? ==> c.raw == userRaw
    ensures IsThenable(c.raw) ==> c.canExecute == Bool(false) && c.fulfilWatch == {c.raw.id}
    ensures !IsThenable(c.raw) ==> c.canExecute == c.raw && c.fulfilWatch == {}
  {
    var o := Normalise(arg);
    var raw := FirstRaw(o, userRaw);
    Resolve(Command(o, false, Undefined, raw, {}, {}), raw)
  }

  /** Calling the command as a plain function: the action runs with the same
      arguments and its completion is returned; no observable is touched. */
  function Call(c: Command, act: Completion): (r: (Command, Completion))
    ensures r.0 == c
    ensures c.options.execute.Callable? ==> r.1 == act
    ensures c.options.execute.NotCallable? ==> r.1 == Abrupt(NotAFunction)
  {
    (c, Invoke(c.options, act))
  }

  /** The first statement of `execute`: the state in which the action runs. */
  function BeginExecute(c: Command): (r: Command)
    ensures r.isExecuting
    ensures r.(isExecuting := c.isExecuting) == c
  {
    c.(isExecuting := true)
  }

  /** setIsExecutingToFalse: a result with `finally` gets a callback that will
      clear the flag on settlement; any other result clears it now. */
  function SettleOrClear(c: Command, result: JsValue): (r: Command)
    ensures r.isExecuting <==> IsFinallyAble(result) && c.isExecuting
    ensures IsFinallyAble(result) ==> r.settleWatch == c.settleWatch + {result.id}
    ensures !IsFinallyAble(result) ==> r.settleWatch == c.settleWatch
    ensures r.options == c.options && r.canExecute == c.canExecute
    ensures r.raw == c.raw && r.fulfilWatch == c.fulfilWatch
  {
    if IsFinallyAble(result) then c.(settleWatch := c.settleWatch + {result.id})
    else c.(isExecuting := false)
  }

  /** `command.execute(...)`: set `isExecuting`, run the action, then hand the
      result to SettleOrClear. A throw escapes before SettleOrClear runs, so it
      leaves `isExecuting` true. The action's completion is returned as is. */
  function Execute(c: Command, act: Completion): (r: (Command, Completion))
    ensures c.options.execute.Callable? ==> r.1 == act
    ensures c.options.execute.NotCallable? ==> r.1 == Abrupt(NotAFunction)
    ensures r.0.isExecuting <==> r.1.Abrupt? || IsFinallyAble(r.1.value)
    ensures r.1.Normal? && IsFinallyAble(r.1.value) ==> r.0.settleWatch == c.settleWatch + {r.1.value.id}
    ensures !(r.1.Normal? && IsFinallyAble(r.1.value)) ==> r.0.settleWatch == c.settleWatch
    ensures r.0.options == c.options && r.0.canExecute == c.canExecute
    ensures r.0.raw == c.raw && r.0.fulfilWatch == c.fulfilWatch
  {
    var running := BeginExecute(c);
    var result := Invoke(c.options, act);
    match result
    case Abrupt(_) => (running, result)
    case Normal(v) => (SettleOrClear(running, v), result)
  }

  /** `canExecuteRaw` re-evaluates to `v` because a dependency changed. The
      default predicate has no dependencies and never re-evaluates; a primitive
      equal to the previous value notifies nobody; otherwise the subscriber
      runs. */
  function RawChange(c: Command, v: JsValue): (r: Command)
    ensures c.options.canExecute.AlwaysTrue? ==> r == c
    ensures c.options.canExecute.UserPredicate? ==> r.raw == v
    ensures c.options.canExecute.UserPredicate? && !SamePrimitive(c.raw, v) ==> r == Resolve(c.(raw := v), v)
    ensures SamePrimitive(c.raw, v) ==> r == c
  {
    if c.options.canExecute.AlwaysTrue? then c
    else if SamePrimitive(c.raw, v) then c
    else Resolve(c.(raw := v), v)
  }

  /** The `finally` callbacks registered on promise `p` run: `isExecuting`
      becomes false, whatever other executions are still pending. */
  function RunFinally(c: Command, p: nat): (r: Command)
    ensures p in c.settleWatch ==> !r.isExecuting
    ensures p !in c.settleWatch ==> r == c
    ensures r.settleWatch == c.settleWatch - {p}
    ensures r.canExecute == c.canExecute && r.fulfilWatch == c.fulfilWatch
    ensures r.options == c.options && r.raw == c.raw
  {
    if p in c.settleWatch then c.(isExecuting := false, settleWatch := c.settleWatch - {p})
    else c
  }

  /** Promise `p` fulfils with `v`: its `finally` callbacks clear
      `isExecuting`, and its `then` callbacks copy `v` into `canExecute`, even
      when a newer raw value has superseded `p`. */
  function Fulfil(c: Command, p: nat, v: JsValue): (r: Command)
    ensures p in c.fulfilWatch ==> r.canExecute == v
    ensures p !in c.fulfilWatch ==> r.canExecute == c.canExecute
    ensures p in c.settleWatch ==> !r.isExecuting
    ensures p !in c.settleWatch ==> r.isExecuting == c.isExecuting
    ensures r.settleWatch == c.settleWatch - {p} && r.fulfilWatch == c.fulfilWatch - {p}
    ensures r.options == c.options && r.raw == c.raw
  {
    var cleared := RunFinally(c, p);
    if p in cleared.fulfilWatch then
      cleared.(canExecute := v, fulfilWatch := cleared.fulfilWatch - {p})
    else cleared
  }

  /** Promise `p` rejects: its `finally` callbacks clear `isExecuting`; there
      is no rejection handler, so `canExecute` keeps its value. */
  function Reject(c: Command, p: nat): (r: Command)
    ensures r.canExecute == c.canExecute
    ensures p in c.settleWatch ==> !r.isExecuting
    ensures p !in c.settleWatch ==> r.isExecuting == c.isExecuting
    ensures r.settleWatch == c.settleWatch - {p} && r.fulfilWatch == c.fulfilWatch - {p}
    ensures r.options == c.options && r.raw == c.raw
  {
    var cleared := RunFinally(c, p);
    cleared.(fulfilWatch := cleared.fulfilWatch - {p})
  }
}

=== FILE: js_values.dfy ===
/** The JavaScript values that the command and its binding inspect, and the
    three JavaScript tests the code applies to them: truthiness (`if (x)`,
    `x && ...`), loose equality with `false` (`x == false`) and the duck-typed
    promise checks (`x && x.then`, `x && x["finally"]`). */
module JsValues {

  /** A JavaScript value. Objects are opaque: `id` is their identity and the
      two flags say whether they carry a truthy `then` or `finally` property
      (a Q promise carries both). */
  datatype JsValue =
    | Undefined
    | Null
    | Bool(b: bool)
    | Num(n: int)
    | Obj(id: nat, hasThen: bool, hasFinally: bool)

  /** JavaScript truthiness. Every object is truthy. */
  predicate Truthy(v: JsValue)
  {
    match v
    case Undefined => false
    case Null => false
    case Bool(b) => b
    case Num(n) => n != 0
    case Obj(_, _, _) => true
  }

  /** `v == false` under loose equality: `false` becomes the number 0;
      `undefined` and `null` equal only each other; a plain object converts
      to the string "[object Object]", which is not 0. A Q promise's own
      `valueOf` would yield its fulfilled value instead, but `canExecute`
      never holds a promise: the subscriber diverts every then-able, and a Q
      promise never fulfils with another promise. */
  predicate LooseEqualsFalse(v: JsValue)
  {
    match v
    case Undefined => false
    case Null => false
    case Bool(b) => !b
    case Num(n) => n == 0
    case Obj(_, _, _) => false
  }

  /** `v && v.then`: the test that makes a `canExecute` value a promise. */
  predicate IsThenable(v: JsValue)
  {
    Truthy(v) && v.Obj? && v.hasThen
  }

  /** `v && v["finally"]`: the test that makes an action result a promise. */
  predicate IsFinallyAble(v: JsValue)
  {
    Truthy(v) && v.Obj? && v.hasFinally
  }

  /** Knockout's default equality comparer: an old primitive value (undefined,
      null, boolean, number) equal to the new one suppresses change
      notification; an object never does. */
  predicate SamePrimitive(prev: JsValue, next: JsValue)
  {
    !prev.Obj? && prev == next
  }

  /** What a call into user code can throw: the user's own value, or the
      TypeError raised by calling something that is not a function. */
  datatype Thrown = Raised(value: JsValue) | NotAFunction

  /** How a call into user code completes: it returns a value or it throws. */
  datatype Completion = Normal(value: JsValue) | Abrupt(thrown: Thrown)
}
